=== FILE: README.md ===
# SQLite account-info store, modelled in Dafny

This project models `SqliteAccountInfo` from the B2 command-line tool
(`b2/account_info/sqlite_account_info.py`): the local store that keeps one
account's credentials and a cache mapping bucket names to bucket ids. The SQL
is stripped away. What remains is a small sequential state machine over the
four tables of the database file:

- `account` holds the credential row. The source writes at most one.
- `bucket` holds (name, id) rows. No uniqueness constraint is declared on it.
- `bucket_upload_url` is kept in the schema but is only ever emptied.
- `update_done` holds the numbers of the schema updates already applied.

The database is the immutable datatype `Tables.Db`. Every public method of
the class is a pure function from one `Db` to the next, or a query on it.
Each call is modelled as one atomic transaction. A call that raises returns
`Failure(e)`, and the database is then unchanged, as SQLite's rollback
leaves it. What is on disk before construction is a `Validation.DiskFile`:

- `Absent`: no file.
- `Database(db, ownerOnly)`: a SQLite database.
- `JsonText(doc)`: a file that is not a database but parses as JSON.
- `Garbage`: anything else.

`Startup.Open` resolves the path, validates the file and creates the tables,
as the constructor does.

Files and modules:

- `results.dfy` (`Results`): `Option`, `Result` and `Outcome`.
- `tables.dfy` (`Tables`): rows, cells, errors, and the store invariant
  `Valid`. `Valid` means at most one account row, each update recorded at
  most once, and the `allowed` column present exactly when update 1 is
  recorded.
- `migration.dfy` (`Migration`): table creation and the numbered update
  protocol.
- `account_store.dfy` (`AccountStore`): `clear`, `set_auth_data` and the
  getters.
- `bucket_cache.dfy` (`BucketCache`, `BucketCacheProperties`): the bucket
  cache and the laws relating its operations.
- `restrictions.dfy` (`Restrictions`): the bucket-name and file-prefix checks.
- `paths.dfy` (`Paths`): resolution of the store's path.
- `validation.dfy` (`Validation`, `Startup`): the start-up decision and
  construction.

Points where the model follows the code as written, including where it
differs from the comment at line 99:

- A file that is neither a usable database nor convertible JSON raises
  `CorruptAccountInfo` and stays on disk. The comment at line 99 says it is
  removed, but the code does not remove it. (A legacy file whose strings
  SQLite cannot encode is the exception; see "Left out" on strings.)
- `get_allowed` is called outside the `try` in
  `get_bucket_name_from_allowed_or_none`. So with no account row, that lookup
  and both restriction checks raise `MissingAccountData`. They do not pass
  as "no restriction".
- `set_auth_data(..., allowed=None, ...)` stores the JSON text `null`, not SQL
  NULL. `get_allowed` still returns `None` for it, just as it does for the
  NULL of a legacy row.
- Python truthiness is modelled where the code relies on it:
  - An explicit file name `""` falls through to the environment.
  - A bucket id `""` means no bucket restriction.
  - A missing or empty name prefix means no prefix restriction.
- A legacy JSON value that is not a container (`null`, a boolean, a number)
  makes `k in data` raise `TypeError`. That error is not a `ValueError`, so it
  escapes.
- A JSON array or string that "contains" all seven key names passes the key
  check. The file is then unlinked and a fresh database is created before
  `data[k]` raises `TypeError`. The same happens when the insert of the
  legacy values fails.
- Python integers are unbounded but SQLite's are 64-bit. Binding an integer
  outside [-2^63, 2^63) raises `OverflowError`, both in `set_auth_data` and
  in the legacy insert. The legacy file is then already gone, since
  `OverflowError` is not a `ValueError`.
- A database whose update log lacks update 1 while the `allowed` column
  exists fails the `ALTER TABLE` with a `DatabaseError`. Its bytes are not
  JSON, so it is reported as corrupt.

## Model

| member | source | states |
|---|---|---|
| `Paths.ResolvePath` | b2/account_info/sqlite_account_info.py:43-46 | a non-empty explicit file name is used verbatim; otherwise the `B2_ACCOUNT_INFO` value, or else `~/.b2_account_info`, passed through home expansion |
| `Paths.ExplicitPathWins` | b2/account_info/sqlite_account_info.py:43-46 | with an explicit name, neither the environment nor the expansion function affects the path, which is the name itself |
| `Paths.EnvironmentBeforeDefault` | b2/account_info/sqlite_account_info.py:43-46 | without an explicit name, only the environment variable's value (when set) reaches the expansion; other variables are irrelevant |
| `Migration.ApplyCommand` | b2/account_info/sqlite_account_info.py:176-177 | adding the `allowed` column succeeds exactly when it is absent, leaves existing rows with NULL there, and touches no other table |
| `Migration.EnsureUpdate` | b2/account_info/sqlite_account_info.py:179-198 | an already recorded update is a no-op; an unrecorded one runs its command and records its number once in the same step, or fails with nothing recorded; more than one marker trips the assertion |
| `Migration.CreateTables` | b2/account_info/sqlite_account_info.py:131-177 | on a valid database, table creation succeeds and leaves it migrated and valid; the cached rows are kept, and each account row keeps every credential, reading NULL in `allowed` if the column is new, in which case exactly marker 1 is appended to the update log; an already migrated database is returned unchanged |
| `Migration.MigratesValid` | b2/account_info/sqlite_account_info.py:176-198 | on a valid database the `allowed` update succeeds and the result is ready |
| `Migration.MarkerAppend` | b2/account_info/sqlite_account_info.py:196-198 | recording a number not yet present makes it occur exactly once and leaves every other count alone |
| `Migration.EnsureUpdateIdempotent` | b2/account_info/sqlite_account_info.py:179-198 | running the same numbered update twice equals running it once, and leaves exactly one marker |
| `Migration.EnsureUpdatePreservesValid` | b2/account_info/sqlite_account_info.py:179-198 | the `allowed` update never fails on a valid database and keeps markers unique and in step with the schema |
| `Migration.CreateTablesIdempotent` | b2/account_info/sqlite_account_info.py:47-49 | creating the tables again after a successful creation changes nothing, as the constructor's second call relies on |
| `Migration.CreateTablesFresh` | b2/account_info/sqlite_account_info.py:115-129 | a brand-new database ends up empty, with the `allowed` column and the single marker 1 |
| `AccountStore.Clear` | b2/account_info/sqlite_account_info.py:200-204 | `account`, `bucket` and `bucket_upload_url` are emptied; `update_done` and the schema are kept |
| `AccountStore.SetAuthData` | b2/account_info/sqlite_account_info.py:206-226 | succeeds exactly when the descriptor is valid, the `allowed` column exists and every integer argument fits 64 bits; the store then holds one account row and empty bucket tables, with the update log kept; otherwise an assertion failure, a missing-column error or `OverflowError`, in that order |
| `AccountStore.AccountInfoOrRaise` | b2/account_info/sqlite_account_info.py:273-284 | each of the seven credential getters (lines 228-247) raises `MissingAccountData` exactly when the account table is empty, and otherwise returns a value held by a stored row |
| `AccountStore.GetAllowed` | b2/account_info/sqlite_account_info.py:249-257 | raises `MissingAccountData` without a row or column; a NULL cell decodes to `None`, a JSON cell to the descriptor it holds |
| `AccountStore.GetAllowedBucketId` | b2/account_info/sqlite_account_info.py:259-264 | `None` without a descriptor, otherwise the descriptor's bucket id; raises exactly when `get_allowed` does |
| `AccountStore.GetAllowedNamePrefix` | b2/account_info/sqlite_account_info.py:266-271 | the empty string without a descriptor, otherwise its prefix (possibly `None`); raises exactly when `get_allowed` does |
| `AccountStore.SetAuthDataThenGet` | b2/account_info/sqlite_account_info.py:206-257 | after `set_auth_data` each of the seven getters returns its argument and `get_allowed` returns the descriptor passed in, `None` included |
| `AccountStore.EmptyAccountRaises` | b2/account_info/sqlite_account_info.py:273-284 | with no account row every credential getter and every `allowed` getter raises `MissingAccountData` |
| `AccountStore.ClearThenGetRaises` | b2/account_info/sqlite_account_info.py:200-204 | after `clear`, every getter raises `MissingAccountData` |
| `AccountStore.AccountWritesPreserveValid` | b2/account_info/sqlite_account_info.py:200-226 | `clear` and `set_auth_data` keep at most one account row and the update log intact |
| `AccountStore.ReadyAcceptsValidAuth` | b2/account_info/sqlite_account_info.py:206-226 | on a migrated store a valid descriptor with values that fit 64 bits is always stored, and the store stays ready |
| `BucketCache.First` | b2/account_info/sqlite_account_info.py:310-313 | `fetchone` yields `None` exactly when no row matches, and otherwise the earliest matching row |
| `BucketCache.RefreshEntireBucketNameCache` | b2/account_info/sqlite_account_info.py:286-293 | the bucket table becomes exactly the given (name, id) pairs in order; every other table is kept |
| `BucketCache.SaveBucket` | b2/account_info/sqlite_account_info.py:295-301 | afterwards exactly one row carries the bucket's id, paired with its name, and it is the last row, as a fresh insert is; the rows with other ids are the same, in the same order, so an older row with the same name still wins a lookup by name |
| `BucketCache.RemoveBucketName` | b2/account_info/sqlite_account_info.py:303-305 | the rows left are exactly the rows that had another name, each as often as before and in the same order |
| `BucketCache.BucketIdByName` | b2/account_info/sqlite_account_info.py:307-317 | `None` exactly when no row has the name, never an error for names the model can represent (see "Left out" on strings); otherwise the id of the first row with that name, as `fetchone` returns it |
| `BucketCache.BucketNameFromAllowed` | b2/account_info/sqlite_account_info.py:319-333 | raises only when the descriptor cannot be read; a name it returns is that of the first row with the allowed bucket id; `None` only when there is no bucket id, it is empty, or no row has it |
| `BucketCacheProperties.SaveBucketIdempotent` | b2/account_info/sqlite_account_info.py:295-301 | saving the same bucket twice leaves the same table as saving it once |
| `BucketCacheProperties.SaveBucketThenResolveId` | b2/account_info/sqlite_account_info.py:295-301 | after `save_bucket`, a lookup by the bucket's id finds its name |
| `BucketCacheProperties.SaveBucketKeepsOlderName` | b2/account_info/sqlite_account_info.py:295-317 | when an older row with another id already carries the name, `save_bucket` does not redirect the name: the lookup by name answers with the older id, never the new one |
| `BucketCacheProperties.RemoveBucketNameThenLookup` | b2/account_info/sqlite_account_info.py:303-317 | after removing a name, it resolves to `None` and every other name resolves as before |
| `BucketCacheProperties.RefreshThenLookup` | b2/account_info/sqlite_account_info.py:286-317 | after a refresh with `E`, a name resolves exactly when some entry of `E` carries it, and then to an id paired with it in `E` |
| `BucketCacheProperties.SetAuthDataEmptiesCache` | b2/account_info/sqlite_account_info.py:211-214 | after `set_auth_data` every name is unknown and the allowed bucket resolves to no name |
| `BucketCacheProperties.BucketNameFromAllowedNone` | b2/account_info/sqlite_account_info.py:319-333 | the allowed bucket name is `None` when no descriptor is stored, it has no bucket id, or no row has that id |
| `BucketCacheProperties.CacheWritesPreserveValid` | b2/account_info/sqlite_account_info.py:286-305 | cache writes keep the store invariant |
| `Restrictions.BucketNameMatchesRestriction` | b2/account_info/sqlite_account_info.py:336-343 | fails exactly when the allowed bucket resolves to a name other than the request; the error is then a `B2Error` whose text is the fixed message followed by that name |
| `Restrictions.FilePrefixMatchesRestriction` | b2/account_info/sqlite_account_info.py:345-352 | fails exactly when the prefix restriction is non-empty and the request does not start with it; the error is then a `B2Error` whose text is the fixed message followed by the restriction |
| `Restrictions.BucketRestrictionOnRows` | b2/account_info/sqlite_account_info.py:319-343 | with a stored descriptor naming a cached bucket, the check rejects exactly the other names, and the error ends with the allowed name |
| `Restrictions.UnrestrictedBucketAlwaysPasses` | b2/account_info/sqlite_account_info.py:259-264 | with no descriptor, or one without a bucket id, every bucket name passes |
| `Restrictions.PrefixRestrictionOnRows` | b2/account_info/sqlite_account_info.py:345-352 | a stored non-empty prefix rejects exactly the prefixes not starting with it, and the error ends with it |
| `Restrictions.UnrestrictedPrefixAlwaysPasses` | b2/account_info/sqlite_account_info.py:266-271 | with no descriptor, or one without `namePrefix`, every file prefix passes |
| `Restrictions.ChecksNeedAccount` | b2/account_info/sqlite_account_info.py:336-352 | with no account row, both checks raise `MissingAccountData` rather than passing |
| `Validation.Contains` | b2/account_info/sqlite_account_info.py:79 | `k in data` tests an object's keys, and raises `TypeError` on `null`, booleans and numbers |
| `Validation.AllPresent` | b2/account_info/sqlite_account_info.py:75-79 | on an object, true exactly when every required key is present; on a non-container, `TypeError` |
| `Validation.ToCell` | b2/account_info/sqlite_account_info.py:93 | a JSON value gives a non-NULL cell exactly when it is a boolean, an integer within 64 bits or a string; a wider integer raises `OverflowError`, an array or object cannot be bound |
| `Validation.BindParameters` | b2/account_info/sqlite_account_info.py:93 | binding succeeds exactly when every value binds, giving one cell per value; otherwise the error is that of the first value that fails |
| `Validation.LegacyParameters` | b2/account_info/sqlite_account_info.py:75-93 | the insert binds the value stored under each column's name at that column's position |
| `Validation.LegacyRow` | b2/account_info/sqlite_account_info.py:85-93 | the insert succeeds exactly when every required value is storable (64-bit integers only); each column then holds the value under its name and `allowed` is NULL; otherwise the error of the first value, in column order, that cannot be bound, and only when all bind, the NOT NULL error |
| `Validation.RequiredKeysAreColumns` | b2/account_info/sqlite_account_info.py:75-78 | the seven legacy keys are exactly the names of the seven account columns |
| `Validation.Validate` | b2/account_info/sqlite_account_info.py:52-100 | success always leaves a database recording update 1 exactly once; a corrupt verdict leaves the file as it was (for strings the model can represent) |
| `Startup.Open` | b2/account_info/sqlite_account_info.py:41-50 | construction fails exactly when validation raises, with validation's error (`CorruptAccountInfo(path)`, `TypeError`, `OverflowError`, a binding error or `AssertionError`) and with validation's file left on disk, which is the fresh database when a legacy import failed; on success the store is the validated database, which the second table creation leaves unchanged |
| `Startup.ValidateAbsent` | b2/account_info/sqlite_account_info.py:56-60 | a missing file becomes a fresh, empty, owner-only, migrated database |
| `Startup.ValidateKeepsDatabase` | b2/account_info/sqlite_account_info.py:62-66 | a valid database is kept with its permissions, its cached rows and every credential of its account rows, and ends up migrated; when the `allowed` column is new, every account row reads NULL there (so `get_allowed` gives `None`) and marker 1 is appended; one already migrated is left exactly as it was |
| `Startup.ValidateConvertsLegacy` | b2/account_info/sqlite_account_info.py:70-95 | JSON with all seven keys, each a boolean, 64-bit integer or string, becomes an owner-only database whose single row holds those values, whose cache is empty and whose `get_allowed` is `None` |
| `Startup.ValidateLegacyInsertFails` | b2/account_info/sqlite_account_info.py:79-93 | JSON with all seven keys but a value that cannot be stored (array, object, integer beyond 64 bits, `null`) has already been replaced by a fresh, empty, owner-only database when the insert's error escapes |
| `Startup.ValidateRejectsCorrupt` | b2/account_info/sqlite_account_info.py:96-100 | JSON lacking a required key, or a non-JSON file, raises `CorruptAccountInfo` with the path and is not removed |
| `Startup.ValidateNonContainer` | b2/account_info/sqlite_account_info.py:72-79 | a legacy JSON `null`, boolean or number makes `k in data` raise `TypeError`, which escapes, and the file is kept |
| `Startup.ValidateNonObjectContainer` | b2/account_info/sqlite_account_info.py:79-93 | an array or string containing all seven key names passes the key check, so the file has already been replaced by a fresh, empty, owner-only database when `data[k]` raises `TypeError` |
| `Startup.ValidateRejectsInconsistentSchema` | b2/account_info/sqlite_account_info.py:62-68 | a database whose column exists without its marker fails to migrate and is reported corrupt, left in place |
| `Startup.OpenReady` | b2/account_info/sqlite_account_info.py:41-50 | construction from a missing file, a valid database or a legacy file whose seven values are all storable (64-bit integers only) succeeds with a ready store, which is what is on disk |

## Left out

- Concurrency is not modelled. That covers the `threading.local` connection
  cache, the `EXCLUSIVE` isolation level and SQLite locking (lines 102-113).
  Each call is one atomic transition.
- `os.chmod` is reduced to the `ownerOnly` flag of a database file.
  `os.unlink` and `os.path.exists` become the choice of `DiskFile` case.
  `os.path.expanduser` is a function parameter of `Paths.ResolvePath`, and
  the environment is a map parameter.
- Byte decoding and JSON parsing are not modelled. The legacy file arrives
  already parsed as a `Validation.Json` value, or as `Garbage` when parsing
  fails. JSON numbers are integers only.
- `json.dumps`/`json.loads` of `allowed` is not modelled. The cell stores the
  descriptor itself, so the round trip holds by construction.
- Only two descriptor keys are modelled: `bucketId` and `namePrefix`. The
  other keys of `allowed` (such as `bucketName` and `capabilities`) are not
  read by this file.
- `allowed_is_valid` belongs to the superclass, which is not part of this
  model. It is the parameter `allowedIsValid` of `AccountStore.SetAuthData`.
  The upload-URL pool of that superclass is left out too.
- SQLite column type affinity is not modelled. A JSON number stored under a
  TEXT column is kept as an integer, where SQLite would convert it to text.
- `set_auth_data` arguments are `Value`s, so `None` cannot be passed for a
  required column. The NOT NULL failure is therefore modelled only for the
  legacy import.
- The order of rows follows insertion order. `fetchone` on an unordered
  `SELECT` is modelled as returning the first row inserted, which is SQLite's
  rowid order in practice but is not guaranteed.
- The `MissingAccountData` message carries the text of the underlying
  exception. The model's error carries no text.
- Not modelled: failures of the SQLite engine itself (disk full, I/O errors,
  a locked file), which the best-effort lookups would fold into `None`.
- Not modelled: logging, the Jython import guard (lines 22-24), and the SQL
  text itself.
- Not modelled: the missing tables of a database from before this schema.
  `CREATE TABLE IF NOT EXISTS` on such a database is equivalent to starting
  from empty sequences.
- Strings are Dafny strings: sequences of Unicode scalar values. A Python
  `str` may also hold lone surrogates (from a `\ud800` escape in the legacy
  JSON, or a command-line name decoded with `surrogateescape`), which
  `sqlite3` refuses to bind with `UnicodeEncodeError`, a `ValueError`. Such
  strings are outside the model. In the source, the legacy import then
  reports `CorruptAccountInfo` after the file has been unlinked and a fresh
  database created (lines 81-100), and `get_bucket_id_or_none_from_bucket_name`
  raises instead of returning `None` (lines 307-317).

=== FILE: account_store.dfy ===
/** The single account record: replacing it, clearing the store, and the
    getters with their "missing account data" policy. */
module AccountStore {
  import opened Results
  import opened Tables

  /** The seven required columns of the account row. */
  datatype Column =
    | AccountId | ApplicationKey | AccountAuthToken | ApiUrl
    | DownloadUrl | MinimumPartSize | Realm

  /** The SQL name of a required column. */
  function ColumnName(c: Column): string
  {
    match c
    case AccountId => "account_id"
    case ApplicationKey => "application_key"
    case AccountAuthToken => "account_auth_token"
    case ApiUrl => "api_url"
    case DownloadUrl => "download_url"
    case MinimumPartSize => "minimum_part_size"
    case Realm => "realm"
  }

  /** The arguments of `set_auth_data`, in the source's parameter order. */
  datatype AuthData = AuthData(
    accountId: Value,
    accountAuthToken: Value,
    apiUrl: Value,
    downloadUrl: Value,
    minimumPartSize: Value,
    allowed: Option<Allowed>,
    applicationKey: Value,
    realm: Value)

  /** The value a row holds in a required column. */
  function Field(row: AccountRow, c: Column): Value
  {
    match c
    case AccountId => row.accountId
    case ApplicationKey => row.applicationKey
    case AccountAuthToken => row.accountAuthToken
    case ApiUrl => row.apiUrl
    case DownloadUrl => row.downloadUrl
    case MinimumPartSize => row.minimumPartSize
    case Realm => row.realm
  }

  /** Empties `account`, `bucket` and `bucket_upload_url`; the update log
      and the schema are kept. */
  function Clear(db: Db): (r: Db)
    ensures r.account == [] && r.buckets == [] && r.uploadUrls == []
    ensures r.updateDone == db.updateDone && r.allowedColumn == db.allowedColumn
  {
    db.(account := [], buckets := [], uploadUrls := [])
  }

  /** Every value `set_auth_data` binds fits a SQLite INTEGER. */
  predicate AuthBindable(auth: AuthData)
  {
    && Bindable(auth.accountId) && Bindable(auth.applicationKey)
    && Bindable(auth.accountAuthToken) && Bindable(auth.apiUrl)
    && Bindable(auth.downloadUrl) && Bindable(auth.minimumPartSize)
    && Bindable(auth.realm)
  }

  /** Replaces the account row and wipes the bucket caches in one
      transaction. An `allowed` descriptor that fails the validity check is
      an assertion failure before anything is written. The insert fails,
      and the deletes are rolled back, when the `allowed` column is missing
      (found when the statement is prepared) or when an integer argument
      does not fit 64 bits (found when it is bound). */
  function SetAuthData(db: Db, auth: AuthData, allowedIsValid: Option<Allowed> -> bool): (r: Result<Db, Error>)
    ensures r.Success? <==> allowedIsValid(auth.allowed) && db.allowedColumn && AuthBindable(auth)
    ensures !allowedIsValid(auth.allowed) ==> r == Failure(AssertionError)
    ensures allowedIsValid(auth.allowed) && !db.allowedColumn ==> r == Failure(SqliteError(NoSuchColumn))
    ensures allowedIsValid(auth.allowed) && db.allowedColumn && !AuthBindable(auth) ==> r == Failure(OverflowError)
    ensures r.Success? ==>
      && |r.value.account| == 1
      && r.value.buckets == [] && r.value.uploadUrls == []
      && r.value.updateDone == db.updateDone && r.value.allowedColumn
  {
    if !allowedIsValid(auth.allowed) then Failure(AssertionError)
    else if !db.allowedColumn then Failure(SqliteError(NoSuchColumn))
    else if !AuthBindable(auth) then Failure(OverflowError)
    else
      var row := AccountRow(auth.accountId, auth.applicationKey, auth.accountAuthToken,
                            auth.apiUrl, auth.downloadUrl, auth.minimumPartSize, auth.realm,
                            Json(auth.allowed));
      Success(db.(account := [row], buckets := [], uploadUrls := []))
  }

  /** Reads a required column of the first account row; an empty account
      table raises `MissingAccountData`. */
  function AccountInfoOrRaise(db: Db, c: Column): (r: Result<Value, Error>)
    ensures r.Failure? <==> db.account == []
    ensures r.Failure? ==> r.error == MissingAccountData
    ensures r.Success? ==> exists row :: row in db.account && Field(row, c) == r.value
  {
    if db.account == [] then Failure(MissingAccountData)
    else Success(Field(db.account[0], c))
  }

  /** The decoded `allowed` descriptor: `None` for a NULL cell and for the
      JSON text `null`. Reading the column fails like any other getter when
      there is no row, and also when the column has not been added. */
  function GetAllowed(db: Db): (r: Result<Option<Allowed>, Error>)
    ensures r.Failure? <==> db.account == [] || !db.allowedColumn
    ensures r.Failure? ==> r.error == MissingAccountData
    ensures r.Success? && db.account[0].allowed.NullCell? ==> r.value.None?
    ensures r.Success? && db.account[0].allowed.Json? ==> r.value == db.account[0].allowed.descriptor
  {
    if !db.allowedColumn || db.account == [] then Failure(MissingAccountData)
    else
      match db.account[0].allowed
      case NullCell => Success(None)
      case Json(descriptor) => Success(descriptor)
  }

  /** The bucket id the key is restricted to, or `None` when there is no
      descriptor or it names no bucket. */
  function GetAllowedBucketId(db: Db): (r: Result<Option<string>, Error>)
    ensures r.Failure? <==> GetAllowed(db).Failure?
    ensures r.Success? && GetAllowed(db).value.None? ==> r.value.None?
    ensures r.Success? && GetAllowed(db).value.Some? ==> r.value == GetAllowed(db).value.value.bucketId
  {
    match GetAllowed(db)
    case Failure(e) => Failure(e)
    case Success(None) => Success(None)
    case Success(Some(allowed)) => Success(allowed.bucketId)
  }

  /** The file-name prefix the key is restricted to: the empty string when
      there is no descriptor, `None` when the descriptor has no prefix. */
  function GetAllowedNamePrefix(db: Db): (r: Result<Option<string>, Error>)
    ensures r.Failure? <==> GetAllowed(db).Failure?
    ensures r.Success? && GetAllowed(db).value.None? ==> r.value == Some("")
    ensures r.Success? && GetAllowed(db).value.Some? ==> r.value == GetAllowed(db).value.value.namePrefix
  {
    match GetAllowed(db)
    case Failure(e) => Failure(e)
    case Success(None) => Success(Some(""))
    case Success(Some(allowed)) => Success(allowed.namePrefix)
  }

  /** After `set_auth_data` every getter returns the argument it was given,
      and `get_allowed` returns the descriptor passed in, `None` included. */
  lemma SetAuthDataThenGet(db: Db, auth: AuthData, allowedIsValid: Option<Allowed> -> bool)
    requires SetAuthData(db, auth, allowedIsValid).Success?
    ensures var s := SetAuthData(db, auth, allowedIsValid).value;
      && AccountInfoOrRaise(s, AccountId) == Success(auth.accountId)
      && AccountInfoOrRaise(s, ApplicationKey) == Success(auth.applicationKey)
      && AccountInfoOrRaise(s, AccountAuthToken) == Success(auth.accountAuthToken)
      && AccountInfoOrRaise(s, ApiUrl) == Success(auth.apiUrl)
      && AccountInfoOrRaise(s, DownloadUrl) == Success(auth.downloadUrl)
      && AccountInfoOrRaise(s, MinimumPartSize) == Success(auth.minimumPartSize)
      && AccountInfoOrRaise(s, Realm) == Success(auth.realm)
      && GetAllowed(s) == Success(auth.allowed)
  {
  }

  /** On an empty account table every credential getter raises
      `MissingAccountData`, and so do the `allowed` getters. */
  lemma EmptyAccountRaises(db: Db, c: Column)
    requires db.account == []
    ensures AccountInfoOrRaise(db, c) == Failure(MissingAccountData)
    ensures GetAllowed(db) == Failure(MissingAccountData)
    ensures GetAllowedBucketId(db) == Failure(MissingAccountData)
    ensures GetAllowedNamePrefix(db) == Failure(MissingAccountData)
  {
  }

  /** After `clear` nothing can be read back, whatever was stored. */
  lemma ClearThenGetRaises(db: Db, c: Column)
    ensures AccountInfoOrRaise(Clear(db), c) == Failure(MissingAccountData)
    ensures GetAllowed(Clear(db)) == Failure(MissingAccountData)
  {
    EmptyAccountRaises(Clear(db), c);
  }

  /** `clear` and a successful `set_auth_data` keep the store invariant. */
  lemma AccountWritesPreserveValid(db: Db, auth: AuthData, allowedIsValid: Option<Allowed> -> bool)
    requires Valid(db)
    ensures Valid(Clear(db))
    ensures SetAuthData(db, auth, allowedIsValid).Success? ==> Valid(SetAuthData(db, auth, allowedIsValid).value)
  {
    assert forall n :: MarkerCount(Clear(db), n) == MarkerCount(db, n);
    if SetAuthData(db, auth, allowedIsValid).Success? {
      var s := SetAuthData(db, auth, allowedIsValid).value;
      assert forall n :: MarkerCount(s, n) == MarkerCount(db, n);
    }
  }

  /** With the `allowed` column in place, a valid descriptor and values that
      fit 64 bits are always stored. */
  lemma ReadyAcceptsValidAuth(db: Db, auth: AuthData, allowedIsValid: Option<Allowed> -> bool)
    requires Ready(db) && allowedIsValid(auth.allowed) && AuthBindable(auth)
    ensures SetAuthData(db, auth, allowedIsValid).Success?
    ensures Ready(SetAuthData(db, auth, allowedIsValid).value)
  {
    AccountWritesPreserveValid(db, auth, allowedIsValid);
  }
}

=== FILE: bucket_cache.dfy ===
/** The bucket-name cache: the `bucket` table of (name, id) rows, which
    carries no uniqueness constraint, and its best-effort lookups. */
module BucketCache {
  import opened Results
  import opened Tables
  import opened AccountStore

  /** A `WHERE` condition on the bucket table: by name or by id. */
  datatype Key = ByName(name: string) | ById(id: string)

  /** A bucket as `save_bucket` receives it. */
  datatype Bucket = Bucket(id: string, name: string)

  predicate Matches(row: BucketRow, k: Key)
  {
    match k
    case ByName(name) => row.name == name
    case ById(id) => row.id == id
  }

  /** The rows a `DELETE ... WHERE` on `k` keeps, in their order. */
  function Drop(rows: seq<BucketRow>, k: Key): seq<BucketRow>
  {
    if rows == [] then []
    else (if Matches(rows[0], k) then [] else [rows[0]]) + Drop(rows[1..], k)
  }

  /** The rows a `SELECT ... WHERE` on `k` returns, in their order. */
  function Only(rows: seq<BucketRow>, k: Key): seq<BucketRow>
  {
    if rows == [] then []
    else (if Matches(rows[0], k) then [rows[0]] else []) + Only(rows[1..], k)
  }

  /** The row `fetchone` returns for a `SELECT ... WHERE` on `k`: the first
      match in table order, or `None` when nothing matches. */
  function First(rows: seq<BucketRow>, k: Key): (r: Option<BucketRow>)
    ensures r.None? <==> forall i :: 0 <= i < |rows| ==> !Matches(rows[i], k)
    ensures r.Some? ==>
      exists i :: (0 <= i < |rows| && rows[i] == r.value && Matches(rows[i], k)
                   && forall j :: 0 <= j < i ==> !Matches(rows[j], k))
  {
    if rows == [] then None
    else if Matches(rows[0], k) then Some(rows[0])
    else
      var r := First(rows[1..], k);
      if r.Some? then
        var i :| 0 <= i < |rows[1..]| && rows[1..][i] == r.value && Matches(rows[1..][i], k)
          && forall j :: 0 <= j < i ==> !Matches(rows[1..][j], k);
        assert rows[i + 1] == r.value;
        r
      else r
  }

  /** Deleting on `k` keeps exactly the rows `k` does not match. */
  lemma {:induction false} DropMembers(rows: seq<BucketRow>, k: Key)
    ensures forall row :: row in Drop(rows, k) <==> row in rows && !Matches(row, k)
  {
    if rows != [] {
      DropMembers(rows[1..], k);
      assert rows == [rows[0]] + rows[1..];
    }
  }

  /** Selecting on `k` returns exactly the rows `k` matches. */
  lemma {:induction false} OnlyMembers(rows: seq<BucketRow>, k: Key)
    ensures forall row :: row in Only(rows, k) <==> row in rows && Matches(row, k)
  {
    if rows != [] {
      OnlyMembers(rows[1..], k);
      assert rows == [rows[0]] + rows[1..];
    }
  }

  /** The first matching row is the head of the matching rows. */
  lemma {:induction false} FirstIsHeadOfOnly(rows: seq<BucketRow>, k: Key)
    ensures First(rows, k).None? <==> Only(rows, k) == []
    ensures First(rows, k).Some? ==> Only(rows, k)[0] == First(rows, k).value
  {
    if rows != [] && !Matches(rows[0], k) {
      FirstIsHeadOfOnly(rows[1..], k);
      assert Only(rows, k) == Only(rows[1..], k);
    }
  }

  lemma {:induction false} DropAppend(a: seq<BucketRow>, b: seq<BucketRow>, k: Key)
    ensures Drop(a + b, k) == Drop(a, k) + Drop(b, k)
  {
    if a != [] {
      assert (a + b)[1..] == a[1..] + b;
      DropAppend(a[1..], b, k);
      var head := if Matches(a[0], k) then [] else [a[0]];
      calc {
        Drop(a + b, k);
        head + Drop(a[1..] + b, k);
        head + (Drop(a[1..], k) + Drop(b, k));
        (head + Drop(a[1..], k)) + Drop(b, k);
      }
    } else {
      assert a + b == b;
    }
  }

  lemma {:induction false} OnlyAppend(a: seq<BucketRow>, b: seq<BucketRow>, k: Key)
    ensures Only(a + b, k) == Only(a, k) + Only(b, k)
  {
    if a != [] {
      assert (a + b)[1..] == a[1..] + b;
      OnlyAppend(a[1..], b, k);
      var head := if Matches(a[0], k) then [a[0]] else [];
      calc {
        Only(a + b, k);
        head + Only(a[1..] + b, k);
        head + (Only(a[1..], k) + Only(b, k));
        (head + Only(a[1..], k)) + Only(b, k);
      }
    } else {
      assert a + b == b;
    }
  }

  /** Deleting rows that no row matches leaves the table as it is. */
  lemma {:induction false} DropNothing(rows: seq<BucketRow>, k: Key)
    requires forall row :: row in rows ==> !Matches(row, k)
    ensures Drop(rows, k) == rows
  {
    if rows != [] {
      assert rows[0] in rows;
      assert forall row :: row in rows[1..] ==> row in rows;
      DropNothing(rows[1..], k);
    }
  }

  /** After deleting on `k` nothing matches `k`. */
  lemma {:induction false} OnlyOfDrop(rows: seq<BucketRow>, k: Key)
    ensures Only(Drop(rows, k), k) == []
  {
    if rows != [] {
      OnlyOfDrop(rows[1..], k);
      var head := if Matches(rows[0], k) then [] else [rows[0]];
      OnlyAppend(head, Drop(rows[1..], k), k);
    }
  }

  /** Rows matching `k` are untouched by deleting on a key that never
      matches alongside it. */
  lemma {:induction false} OnlyAfterDrop(rows: seq<BucketRow>, k: Key, k': Key)
    requires forall row: BucketRow :: Matches(row, k) ==> !Matches(row, k')
    ensures Only(Drop(rows, k'), k) == Only(rows, k)
  {
    if rows != [] {
      OnlyAfterDrop(rows[1..], k, k');
      var head := if Matches(rows[0], k') then [] else [rows[0]];
      OnlyAppend(head, Drop(rows[1..], k'), k);
    }
  }

  /** Rows appended after a match do not change what `fetchone` returns. */
  lemma {:induction false} FirstAppendFound(a: seq<BucketRow>, b: seq<BucketRow>, k: Key)
    requires First(a, k).Some?
    ensures First(a + b, k) == First(a, k)
  {
    if !Matches(a[0], k) {
      assert (a + b)[1..] == a[1..] + b;
      FirstAppendFound(a[1..], b, k);
    }
  }

  /** `refresh_entire_bucket_name_cache`'s input as table rows. */
  function ToRows(entries: seq<(string, string)>): (r: seq<BucketRow>)
    ensures |r| == |entries|
    ensures forall i :: 0 <= i < |entries| ==> r[i] == BucketRow(entries[i].0, entries[i].1)
  {
    seq(|entries|, i requires 0 <= i < |entries| => BucketRow(entries[i].0, entries[i].1))
  }

  /** Replaces the whole cache with the given (name, id) pairs, inserted in
      order after one delete of every row. */
  method RefreshEntireBucketNameCache(db: Db, entries: seq<(string, string)>) returns (r: Db)
    ensures r == db.(buckets := ToRows(entries))
    ensures r.buckets == ToRows(entries)
    ensures r.account == db.account && r.uploadUrls == db.uploadUrls
    ensures r.updateDone == db.updateDone && r.allowedColumn == db.allowedColumn
  {
    r := db.(buckets := []);
    var i := 0;
    while i < |entries|
      invariant 0 <= i <= |entries|
      invariant r.buckets == ToRows(entries[..i])
      invariant r == db.(buckets := r.buckets)
    {
      var (name, id) := entries[i];
      r := r.(buckets := r.buckets + [BucketRow(name, id)]);
      i := i + 1;
    }
    assert entries[..i] == entries;
  }

  /** Overwrites by id: every row with the bucket's id is deleted, then the
      new (name, id) row is appended. */
  function SaveBucket(db: Db, bucket: Bucket): (r: Db)
    ensures Only(r.buckets, ById(bucket.id)) == [BucketRow(bucket.name, bucket.id)]
    ensures Drop(r.buckets, ById(bucket.id)) == Drop(db.buckets, ById(bucket.id))
    ensures |r.buckets| > 0 && r.buckets[|r.buckets| - 1] == BucketRow(bucket.name, bucket.id)
    ensures r.account == db.account && r.uploadUrls == db.uploadUrls
    ensures r.updateDone == db.updateDone && r.allowedColumn == db.allowedColumn
  {
    var k := ById(bucket.id);
    var kept := Drop(db.buckets, k);
    var row := BucketRow(bucket.name, bucket.id);
    OnlyAppend(kept, [row], k);
    DropAppend(kept, [row], k);
    DropMembers(db.buckets, k);
    DropNothing(kept, k);
    OnlyOfDrop(db.buckets, k);
    db.(buckets := kept + [row])
  }

  /** Deletes every row carrying the given name; the other rows stay, each
      as often as before and in the same order. */
  function RemoveBucketName(db: Db, name: string): (r: Db)
    ensures r.buckets == Drop(db.buckets, ByName(name))
    ensures forall row :: row in r.buckets <==> row in db.buckets && row.name != name
    ensures r.account == db.account && r.uploadUrls == db.uploadUrls
    ensures r.updateDone == db.updateDone && r.allowedColumn == db.allowedColumn
  {
    DropMembers(db.buckets, ByName(name));
    db.(buckets := Drop(db.buckets, ByName(name)))
  }

  /** The id of the first row with the given name, or `None`; the lookup
      never raises for a name made of Unicode scalar values, which every
      Dafny string is. */
  function BucketIdByName(db: Db, name: string): (r: Option<string>)
    ensures r.None? <==> forall i :: 0 <= i < |db.buckets| ==> db.buckets[i].name != name
    ensures r.Some? ==> BucketRow(name, r.value) in db.buckets
    ensures r.Some? ==> First(db.buckets, ByName(name)) == Some(BucketRow(name, r.value))
  {
    match First(db.buckets, ByName(name))
    case None => None
    case Some(row) => Some(row.id)
  }

  /** The name of the bucket the key is restricted to. `None` when there is
      no descriptor, it names no bucket (or the empty id), or no row has that
      id; reading the descriptor itself can still raise. */
  function BucketNameFromAllowed(db: Db): (r: Result<Option<string>, Error>)
    ensures r.Failure? <==> GetAllowed(db).Failure?
    ensures r.Failure? ==> r.error == MissingAccountData
    ensures r.Success? && r.value.Some? ==>
      && GetAllowedBucketId(db).value.Some?
      && First(db.buckets, ById(GetAllowedBucketId(db).value.value))
           == Some(BucketRow(r.value.value, GetAllowedBucketId(db).value.value))
    ensures r.Success? && r.value.None? ==>
      || GetAllowedBucketId(db).value.None?
      || GetAllowedBucketId(db).value.value == ""
      || forall row :: row in db.buckets ==> row.id != GetAllowedBucketId(db).value.value
  {
    match GetAllowedBucketId(db)
    case Failure(e) => Failure(e)
    case Success(None) => Success(None)
    case Success(Some(id)) =>
      if id == "" then Success(None)
      else
        match First(db.buckets, ById(id))
        case None => Success(None)
        case Some(row) => Success(Some(row.name))
  }
}

/** What the cache operations promise when combined with each other and with
    the account record. */
module BucketCacheProperties {
  import opened Results
  import opened Tables
  import opened AccountStore
  import opened BucketCache

  /** `fetchone` on a selection is the head of the selected rows. */
  lemma FirstFromOnly(rows: seq<BucketRow>, k: Key)
    ensures First(rows, k) == (if Only(rows, k) == [] then None else Some(Only(rows, k)[0]))
  {
    FirstIsHeadOfOnly(rows, k);
  }

  /** Saving the same bucket twice gives the same table as saving it once. */
  lemma SaveBucketIdempotent(db: Db, bucket: Bucket)
    ensures SaveBucket(SaveBucket(db, bucket), bucket) == SaveBucket(db, bucket)
  {
    var k := ById(bucket.id);
    var row := BucketRow(bucket.name, bucket.id);
    var kept := Drop(db.buckets, k);
    DropMembers(db.buckets, k);
    DropNothing(kept, k);
    DropAppend(kept, [row], k);
    assert Drop([row], k) == [];
    assert Drop(kept + [row], k) == kept;
  }

  /** After `save_bucket` the bucket's id resolves to its name. */
  lemma SaveBucketThenResolveId(db: Db, bucket: Bucket)
    ensures First(SaveBucket(db, bucket).buckets, ById(bucket.id)) == Some(BucketRow(bucket.name, bucket.id))
  {
    FirstFromOnly(SaveBucket(db, bucket).buckets, ById(bucket.id));
  }

  /** Saving a bucket under a name an older row with another id already
      carries does not redirect the name: a lookup by name still answers
      with the older row's id, as it did once the save's delete ran. */
  lemma SaveBucketKeepsOlderName(db: Db, bucket: Bucket)
    requires exists row :: row in Drop(db.buckets, ById(bucket.id)) && row.name == bucket.name
    ensures BucketIdByName(SaveBucket(db, bucket), bucket.name)
      == BucketIdByName(db.(buckets := Drop(db.buckets, ById(bucket.id))), bucket.name)
    ensures BucketIdByName(SaveBucket(db, bucket), bucket.name) != Some(bucket.id)
  {
    var kept := Drop(db.buckets, ById(bucket.id));
    DropMembers(db.buckets, ById(bucket.id));
    var row :| row in kept && row.name == bucket.name;
    assert Matches(row, ByName(bucket.name));
    FirstAppendFound(kept, [BucketRow(bucket.name, bucket.id)], ByName(bucket.name));
  }

  /** After `remove_bucket_name(n)`, `n` resolves to nothing and every other
      name resolves as it did before. */
  lemma RemoveBucketNameThenLookup(db: Db, name: string, other: string)
    requires other != name
    ensures BucketIdByName(RemoveBucketName(db, name), name) == None
    ensures BucketIdByName(RemoveBucketName(db, name), other) == BucketIdByName(db, other)
  {
    var r := RemoveBucketName(db, name);
    FirstFromOnly(r.buckets, ByName(other));
    FirstFromOnly(db.buckets, ByName(other));
    OnlyAfterDrop(db.buckets, ByName(other), ByName(name));
  }

  /** After a refresh with `entries`, a name resolves exactly when some entry
      carries it, and then to an id paired with it in `entries`. */
  lemma RefreshThenLookup(db: Db, entries: seq<(string, string)>, name: string)
    ensures var r := db.(buckets := ToRows(entries));
      && (BucketIdByName(r, name).None? <==> forall i :: 0 <= i < |entries| ==> entries[i].0 != name)
      && (BucketIdByName(r, name).Some? ==> (name, BucketIdByName(r, name).value) in entries)
  {
    var r := db.(buckets := ToRows(entries));
    if BucketIdByName(r, name).Some? {
      var id := BucketIdByName(r, name).value;
      var i :| 0 <= i < |r.buckets| && r.buckets[i] == BucketRow(name, id);
      assert entries[i] == (name, id);
    }
  }

  /** `set_auth_data` empties the cache: every name is then unknown, and the
      restricted bucket resolves to no name. */
  lemma SetAuthDataEmptiesCache(db: Db, auth: AuthData, allowedIsValid: Option<Allowed> -> bool, name: string)
    requires SetAuthData(db, auth, allowedIsValid).Success?
    ensures BucketIdByName(SetAuthData(db, auth, allowedIsValid).value, name) == None
    ensures BucketNameFromAllowed(SetAuthData(db, auth, allowedIsValid).value) == Success(None)
  {
  }

  /** `get_bucket_name_from_allowed_or_none` is `None` when no descriptor is
      stored, when it has no bucket id, or when no cached row has that id. */
  lemma BucketNameFromAllowedNone(db: Db)
    requires GetAllowed(db).Success?
    requires || GetAllowed(db).value.None?
             || GetAllowed(db).value.value.bucketId.None?
             || (forall row :: row in db.buckets ==> row.id != GetAllowed(db).value.value.bucketId.value)
    ensures BucketNameFromAllowed(db) == Success(None)
  {
    var id := GetAllowedBucketId(db);
    if id.value.Some? && id.value.value != "" {
      forall i | 0 <= i < |db.buckets|
        ensures !Matches(db.buckets[i], ById(id.value.value))
      {
        assert db.buckets[i] in db.buckets;
      }
    }
  }

  /** The cache operations keep the store invariant. */
  lemma CacheWritesPreserveValid(db: Db, bucket: Bucket, name: string, entries: seq<(string, string)>)
    requires Valid(db)
    ensures Valid(SaveBucket(db, bucket))
    ensures Valid(RemoveBucketName(db, name))
    ensures Valid(db.(buckets := ToRows(entries)))
  {
    assert forall n :: MarkerCount(SaveBucket(db, bucket), n) == MarkerCount(db, n);
    assert forall n :: MarkerCount(RemoveBucketName(db, name), n) == MarkerCount(db, n);
    assert forall n :: MarkerCount(db.(buckets := ToRows(entries)), n) == MarkerCount(db, n);
  }
}

=== FILE: migration.dfy ===
/** Table creation and the numbered, idempotent schema-update protocol. */
module Migration {
  import opened Results
  import opened Tables

  /** The schema-altering statements a numbered update may run. */
  datatype SchemaCommand = AddAllowedColumn

  /** Runs a schema-altering statement. Adding a column that already exists
      is refused by SQLite; rows that predate the column read it as NULL. */
  function ApplyCommand(db: Db, cmd: SchemaCommand): (r: Result<Db, Error>)
    ensures r.Success? <==> !db.allowedColumn
    ensures r.Failure? ==> r.error == SqliteError(DuplicateColumn)
    ensures r.Success? ==>
      && r.value.allowedColumn
      && |r.value.account| == |db.account|
      && (forall i :: 0 <= i < |db.account| ==>
            r.value.account[i] == db.account[i].(allowed := NullCell))
      && r.value.buckets == db.buckets
      && r.value.uploadUrls == db.uploadUrls
      && r.value.updateDone == db.updateDone
  {
    match cmd
    case AddAllowedColumn =>
      if db.allowedColumn then Failure(SqliteError(DuplicateColumn))
      else
        var rows := seq(|db.account|, i requires 0 <= i < |db.account| => db.account[i].(allowed := NullCell));
        Success(db.(allowedColumn := true, account := rows))
  }

  /** Runs update `n` unless it is already recorded, and records it in the
      same transaction; a failing statement leaves the database unchanged.
      More than one marker for `n` trips the source's assertion. */
  function EnsureUpdate(db: Db, n: int, cmd: SchemaCommand): (r: Result<Db, Error>)
    ensures MarkerCount(db, n) > 1 ==> r == Failure(AssertionError)
    ensures MarkerCount(db, n) == 1 ==> r == Success(db)
    ensures MarkerCount(db, n) == 0 ==> (r.Success? <==> ApplyCommand(db, cmd).Success?)
    ensures MarkerCount(db, n) == 0 && r.Success? ==>
      && MarkerCount(r.value, n) == 1
      && r.value.updateDone == db.updateDone + [n]
      && r.value == ApplyCommand(db, cmd).value.(updateDone := db.updateDone + [n])
  {
    var count := MarkerCount(db, n);
    if count != 0 && count != 1 then Failure(AssertionError)
    else if count == 1 then Success(db)
    else
      match ApplyCommand(db, cmd)
      case Failure(e) => Failure(e)
      case Success(altered) => Success(altered.(updateDone := altered.updateDone + [n]))
  }

  /** Creates the four tables if absent (a no-op on this representation,
      whose tables always exist) and then applies the `allowed` update. */
  function CreateTables(db: Db): (r: Result<Db, Error>)
    ensures Valid(db) ==> r.Success? && Ready(r.value)
    ensures Valid(db) ==>
      && r.value.buckets == db.buckets
      && r.value.uploadUrls == db.uploadUrls
      && |r.value.account| == |db.account|
      && forall i :: 0 <= i < |db.account| ==>
           r.value.account[i].(allowed := NullCell) == db.account[i].(allowed := NullCell)
    ensures Valid(db) && !db.allowedColumn ==>
      && r.value.updateDone == db.updateDone + [AllowedColumnUpdate]
      && forall i :: 0 <= i < |db.account| ==> r.value.account[i].allowed == NullCell
    ensures Valid(db) && db.allowedColumn ==> r == Success(db)
  {
    MigratesValid(db);
    EnsureUpdate(db, AllowedColumnUpdate, AddAllowedColumn)
  }

  /** On a valid database the `allowed` update succeeds and leaves it ready. */
  lemma MigratesValid(db: Db)
    ensures Valid(db) ==>
      var r := EnsureUpdate(db, AllowedColumnUpdate, AddAllowedColumn);
      r.Success? && Ready(r.value)
  {
    if Valid(db) {
      EnsureUpdatePreservesValid(db, AddAllowedColumn);
    }
  }

  /** Appending `n` to a list that lacks it makes `n` occur once and leaves
      every other count alone. */
  lemma MarkerAppend(updates: seq<int>, n: int)
    requires n !in updates
    ensures multiset(updates + [n])[n] == 1
    ensures forall m :: m != n ==> multiset(updates + [n])[m] == multiset(updates)[m]
  {
    assert multiset(updates + [n]) == multiset(updates) + multiset{n};
  }

  /** Running an update a second time changes nothing: the statement runs
      once and exactly one marker for `n` is recorded. */
  lemma EnsureUpdateIdempotent(db: Db, n: int, cmd: SchemaCommand)
    requires EnsureUpdate(db, n, cmd).Success?
    ensures EnsureUpdate(EnsureUpdate(db, n, cmd).value, n, cmd) == EnsureUpdate(db, n, cmd)
    ensures MarkerCount(EnsureUpdate(db, n, cmd).value, n) == 1
  {
  }

  /** A numbered update keeps the store invariant. */
  lemma EnsureUpdatePreservesValid(db: Db, cmd: SchemaCommand)
    requires Valid(db)
    ensures EnsureUpdate(db, AllowedColumnUpdate, cmd).Success?
    ensures Valid(EnsureUpdate(db, AllowedColumnUpdate, cmd).value)
  {
    var n := AllowedColumnUpdate;
    if MarkerCount(db, n) == 0 {
      var r := EnsureUpdate(db, n, cmd).value;
      MarkerAppend(db.updateDone, n);
      forall m
        ensures MarkerCount(r, m) <= 1
      {
        if m != n {
          assert MarkerCount(r, m) == MarkerCount(db, m);
        }
      }
    }
  }

  /** Creating the tables a second time is a no-op. */
  lemma CreateTablesIdempotent(db: Db)
    requires CreateTables(db).Success?
    ensures CreateTables(CreateTables(db).value) == CreateTables(db)
  {
    EnsureUpdateIdempotent(db, AllowedColumnUpdate, AddAllowedColumn);
  }

  /** The database `_create_database` leaves: tables created, the `allowed`
      update applied and recorded. */
  const FreshDb := Db(true, [], [], [], [AllowedColumnUpdate])

  /** A brand-new database ends with the `allowed` column and one marker. */
  lemma CreateTablesFresh()
    ensures CreateTables(EmptyDb) == Success(FreshDb)
  {
    assert MarkerCount(EmptyDb, AllowedColumnUpdate) == 0;
    var altered := ApplyCommand(EmptyDb, AddAllowedColumn).value;
    assert altered.account == [];
    assert altered == Db(true, [], [], [], []);
    assert EnsureUpdate(EmptyDb, AllowedColumnUpdate, AddAllowedColumn) == Success(altered.(updateDone := [] + [AllowedColumnUpdate]));
    assert [] + [AllowedColumnUpdate] == [AllowedColumnUpdate];
    assert CreateTables(EmptyDb) == EnsureUpdate(EmptyDb, AllowedColumnUpdate, AddAllowedColumn);
  }
}

=== FILE: paths.dfy ===
/** Where the store lives: explicit path, then the `B2_ACCOUNT_INFO`
    environment variable, then the default file in the home directory. */
module Paths {
  import opened Results

  const AccountInfoEnvVar := "B2_ACCOUNT_INFO"
  const DefaultAccountInfoFile := "~/.b2_account_info"

  /** Python truthiness of an optional string: present and non-empty. */
  predicate Truthy(s: Option<string>)
  {
    s.Some? && s.value != ""
  }

  /** The path the store opens. An explicit, non-empty file name is used
      verbatim, without home-directory expansion; otherwise the environment
      variable (when set, even to the empty string) or the default is
      expanded by `expandUser`. */
  function ResolvePath(fileName: Option<string>, environ: map<string, string>, expandUser: string -> string): (path: string)
    ensures Truthy(fileName) ==> path == fileName.value
    ensures !Truthy(fileName) && AccountInfoEnvVar in environ ==> path == expandUser(environ[AccountInfoEnvVar])
    ensures !Truthy(fileName) && AccountInfoEnvVar !in environ ==> path == expandUser(DefaultAccountInfoFile)
  {
    var userPath := if Truthy(fileName) then fileName.value
                    else if AccountInfoEnvVar in environ then environ[AccountInfoEnvVar]
                    else DefaultAccountInfoFile;
    if Truthy(fileName) then fileName.value else expandUser(userPath)
  }

  /** An explicit file name wins over the environment and is never expanded:
      neither the environment nor the expansion function can change it. */
  lemma ExplicitPathWins(name: string, env1: map<string, string>, env2: map<string, string>,
                         expand1: string -> string, expand2: string -> string)
    requires name != ""
    ensures ResolvePath(Some(name), env1, expand1) == ResolvePath(Some(name), env2, expand2) == name
  {
  }

  /** Without an explicit name, the environment variable wins over the
      default: only its value reaches the expansion. */
  lemma EnvironmentBeforeDefault(fileName: Option<string>, environ: map<string, string>, expandUser: string -> string)
    requires !Truthy(fileName)
    ensures AccountInfoEnvVar in environ ==>
      ResolvePath(fileName, environ, expandUser) == ResolvePath(None, map[AccountInfoEnvVar := environ[AccountInfoEnvVar]], expandUser)
    ensures AccountInfoEnvVar !in environ ==>
      ResolvePath(fileName, environ, expandUser) == ResolvePath(None, map[], expandUser)
  {
  }
}

=== FILE: restrictions.dfy ===
/** The two restriction checks that compare a request against the
    account's authorization-scope descriptor. */
module Restrictions {
  import opened Results
  import opened Tables
  import opened AccountStore
  import opened BucketCache

  const BucketRestrictionMessage := "Invalid Bucket Name given in command, authorization is limited to: "
  const PrefixRestrictionMessage := "Invalid File Prefix given in command, authorization is limited to: "

  /** Python's `s.startswith(p)`. */
  predicate StartsWith(s: string, p: string)
  {
    p <= s
  }

  /** Python's `s.endswith(p)`. */
  predicate EndsWith(s: string, p: string)
  {
    |p| <= |s| && s[|s| - |p|..] == p
  }

  /** Fails exactly when the restricted bucket resolves to a name other than
      the requested one, with an error naming the allowed bucket. Reading the
      descriptor raises `MissingAccountData` when no account is stored. */
  function BucketNameMatchesRestriction(db: Db, requested: string): (r: Outcome<Error>)
    ensures BucketNameFromAllowed(db).Failure? ==> r == Fail(MissingAccountData)
    ensures BucketNameFromAllowed(db).Success? ==>
      (r.Pass? <==> BucketNameFromAllowed(db).value in {None, Some(requested)})
    ensures r.Fail? && BucketNameFromAllowed(db).Success? ==>
      && r.error.B2Error?
      && StartsWith(r.error.message, BucketRestrictionMessage)
      && BucketNameFromAllowed(db) == Success(Some(r.error.message[|BucketRestrictionMessage|..]))
  {
    match BucketNameFromAllowed(db)
    case Failure(e) => Fail(e)
    case Success(None) => Pass
    case Success(Some(allowedName)) =>
      if allowedName != requested then Fail(B2Error(BucketRestrictionMessage + allowedName))
      else Pass
  }

  /** Fails exactly when the prefix restriction is a non-empty string the
      requested prefix does not start with, naming that restriction; a
      missing prefix counts as no restriction. */
  function FilePrefixMatchesRestriction(db: Db, filePrefix: string): (r: Outcome<Error>)
    ensures GetAllowedNamePrefix(db).Failure? ==> r == Fail(MissingAccountData)
    ensures GetAllowedNamePrefix(db).Success? ==>
      (r.Fail? <==> (var p := GetAllowedNamePrefix(db).value; p.Some? && p.value != "" && !StartsWith(filePrefix, p.value)))
    ensures r.Fail? && GetAllowedNamePrefix(db).Success? ==>
      && r.error.B2Error?
      && StartsWith(r.error.message, PrefixRestrictionMessage)
      && GetAllowedNamePrefix(db) == Success(Some(r.error.message[|PrefixRestrictionMessage|..]))
  {
    match GetAllowedNamePrefix(db)
    case Failure(e) => Fail(e)
    case Success(None) => Pass
    case Success(Some(restriction)) =>
      if restriction != "" && !StartsWith(filePrefix, restriction) then
        Fail(B2Error(PrefixRestrictionMessage + restriction))
      else Pass
  }

  /** Stated on the stored rows: with a descriptor restricting the key to a
      non-empty bucket id whose first cached row is named `allowedName`, the
      bucket check rejects exactly the other names, and says which name is
      allowed. */
  lemma BucketRestrictionOnRows(db: Db, requested: string, id: string, allowedName: string)
    requires db.allowedColumn && db.account != []
    requires db.account[0].allowed.Json? && db.account[0].allowed.descriptor.Some?
    requires db.account[0].allowed.descriptor.value.bucketId == Some(id) && id != ""
    requires First(db.buckets, ById(id)) == Some(BucketRow(allowedName, id))
    ensures BucketNameMatchesRestriction(db, requested).Fail? <==> requested != allowedName
    ensures BucketNameMatchesRestriction(db, requested).Fail? ==>
      && BucketNameMatchesRestriction(db, requested).error.B2Error?
      && EndsWith(BucketNameMatchesRestriction(db, requested).error.message, allowedName)
  {
    assert BucketNameFromAllowed(db) == Success(Some(allowedName));
    var m := BucketRestrictionMessage + allowedName;
    assert m[|m| - |allowedName|..] == allowedName;
  }

  /** Without a stored descriptor, or with one naming no bucket, every bucket
      name is accepted. */
  lemma UnrestrictedBucketAlwaysPasses(db: Db, requested: string)
    requires GetAllowed(db).Success?
    requires GetAllowed(db).value.None? || GetAllowed(db).value.value.bucketId.None?
    ensures BucketNameMatchesRestriction(db, requested) == Pass
  {
  }

  /** Stated on the stored rows: a non-empty prefix restriction rejects
      exactly the prefixes that do not start with it, and names it. */
  lemma PrefixRestrictionOnRows(db: Db, filePrefix: string, restriction: string)
    requires db.allowedColumn && db.account != []
    requires db.account[0].allowed.Json? && db.account[0].allowed.descriptor.Some?
    requires db.account[0].allowed.descriptor.value.namePrefix == Some(restriction) && restriction != ""
    ensures FilePrefixMatchesRestriction(db, filePrefix).Fail? <==> !StartsWith(filePrefix, restriction)
    ensures FilePrefixMatchesRestriction(db, filePrefix).Fail? ==>
      && FilePrefixMatchesRestriction(db, filePrefix).error.B2Error?
      && EndsWith(FilePrefixMatchesRestriction(db, filePrefix).error.message, restriction)
  {
    var m := PrefixRestrictionMessage + restriction;
    assert m[|m| - |restriction|..] == restriction;
  }

  /** A legacy account (NULL descriptor), a descriptor of `null`, and a
      descriptor without a prefix all accept every file prefix. */
  lemma UnrestrictedPrefixAlwaysPasses(db: Db, filePrefix: string)
    requires GetAllowed(db).Success?
    requires GetAllowed(db).value.None? || GetAllowed(db).value.value.namePrefix.None?
    ensures FilePrefixMatchesRestriction(db, filePrefix) == Pass
  {
  }

  /** With no account stored, both checks raise `MissingAccountData` instead
      of passing. */
  lemma ChecksNeedAccount(db: Db, requested: string)
    requires db.account == []
    ensures BucketNameMatchesRestriction(db, requested) == Fail(MissingAccountData)
    ensures FilePrefixMatchesRestriction(db, requested) == Fail(MissingAccountData)
  {
  }
}

=== FILE: results.dfy ===
/** Failure-carrying wrappers used throughout the model: a value that may be
    absent, a computation that may raise, and a check that may fail. */
module Results {

  /** Python's `None` or a present value. */
  datatype Option<+T> = None | Some(value: T)

  /** A call that returns a value or raises an error. */
  datatype Result<+T, +E> = Success(value: T) | Failure(error: E)

  /** A call that returns nothing or raises an error. */
  datatype Outcome<+E> = Pass | Fail(error: E)
}

=== FILE: tables.dfy ===
/** The data model of the account-info store: the four tables of the
    database file, the cells they hold and the errors the store raises. */
module Tables {
  import opened Results

  /** A value in one of the seven required account columns (SQLite text or integer). */
  datatype Value = Text(text: string) | Integer(number: int)

  /** The range of a SQLite INTEGER: Python's sqlite3 raises `OverflowError`
      when it binds an int outside it. */
  predicate Int64(i: int)
  {
    -0x8000_0000_0000_0000 <= i < 0x8000_0000_0000_0000
  }

  /** A value SQLite can bind as a statement parameter. */
  predicate Bindable(v: Value)
  {
    v.Integer? ==> Int64(v.number)
  }

  /** The authorization-scope descriptor: an optional bucket id and an optional
      file-name prefix the account's key is restricted to. */
  datatype Allowed = Allowed(bucketId: Option<string>, namePrefix: Option<string>)

  /** The `allowed` cell of the account row: SQL NULL (a row written before the
      column existed, or imported from the legacy file), or the JSON text of a
      descriptor or of `null`. */
  datatype AllowedCell = NullCell | Json(descriptor: Option<Allowed>)

  /** One row of the `account` table. */
  datatype AccountRow = AccountRow(
    accountId: Value,
    applicationKey: Value,
    accountAuthToken: Value,
    apiUrl: Value,
    downloadUrl: Value,
    minimumPartSize: Value,
    realm: Value,
    allowed: AllowedCell)

  /** One row of the `bucket` table (the bucket-name cache). */
  datatype BucketRow = BucketRow(name: string, id: string)

  /** One row of the unused `bucket_upload_url` table. */
  datatype UploadUrlRow = UploadUrlRow(bucketId: string, uploadUrl: string, uploadAuthToken: string)

  /** The whole database: whether the `allowed` column has been added to
      `account`, and the rows of the four tables in insertion order. */
  datatype Db = Db(
    allowedColumn: bool,
    account: seq<AccountRow>,
    buckets: seq<BucketRow>,
    uploadUrls: seq<UploadUrlRow>,
    updateDone: seq<int>)

  /** A database whose tables have just been created and hold nothing. */
  const EmptyDb := Db(false, [], [], [], [])

  /** The number of the one schema update the store knows: adding `allowed`. */
  const AllowedColumnUpdate := 1

  /** Why SQLite refused a statement. */
  datatype SqlFailure =
    | DuplicateColumn       // ALTER TABLE adding a column that exists
    | NoSuchColumn          // a statement naming a column the table lacks
    | NotNullConstraint     // NULL inserted into a NOT NULL column
    | UnsupportedParameter  // a bound parameter of a type SQLite cannot store

  /** The errors the store raises. */
  datatype Error =
    | MissingAccountData
    | CorruptAccountInfo(path: string)
    | B2Error(message: string)
    | SqliteError(failure: SqlFailure)
    | TypeError
    | OverflowError
    | AssertionError

  /** How many `update_done` rows record update `n`. */
  function MarkerCount(db: Db, n: int): nat
  {
    multiset(db.updateDone)[n]
  }

  /** The invariant every database written by the store keeps: at most one
      account row, each update recorded at most once, and the `allowed`
      column present exactly when its update is recorded. */
  ghost predicate Valid(db: Db)
  {
    && |db.account| <= 1
    && (forall n :: MarkerCount(db, n) <= 1)
    && (db.allowedColumn <==> AllowedColumnUpdate in db.updateDone)
  }

  /** A valid database whose schema is fully migrated. */
  ghost predicate Ready(db: Db)
  {
    Valid(db) && db.allowedColumn
  }
}

=== FILE: validation.dfy ===
/** Start-up: deciding whether the file at the resolved path is a fresh
    store, a usable database, a convertible legacy JSON file or corrupt. */
module Validation {
  import opened Results
  import opened Tables
  import opened Migration
  import opened AccountStore

  /** A parsed JSON document (numbers restricted to integers). */
  datatype Json =
    | JNull
    | JBool(b: bool)
    | JNumber(n: int)
    | JString(s: string)
    | JArray(items: seq<Json>)
    | JObject(fields: map<string, Json>)

  /** What is on disk at the store's path. A database remembers whether its
      permissions were restricted to the owner; `JsonText` is a file that is
      not a database but decodes as UTF-8 JSON; `Garbage` is anything else. */
  datatype DiskFile =
    | Absent
    | Database(db: Db, ownerOnly: bool)
    | JsonText(doc: Json)
    | Garbage

  /** The file after start-up validation, and the error it raised, if any. */
  datatype Validated = Validated(file: DiskFile, error: Option<Error>)

  /** The keys a legacy file must hold, in the order of the account columns
      they fill. */
  const RequiredKeys: seq<string> :=
    ["account_id", "application_key", "account_auth_token", "api_url",
     "download_url", "minimum_part_size", "realm"]

  /** Python's `key in data`: a key of an object, an element of an array, a
      substring of a string; `null`, booleans and numbers are not containers. */
  function Contains(doc: Json, key: string): (r: Result<bool, Error>)
    ensures doc.JObject? ==> r == Success(key in doc.fields)
    ensures doc.JNull? || doc.JBool? || doc.JNumber? ==> r == Failure(TypeError)
  {
    match doc
    case JObject(fields) => Success(key in fields)
    case JArray(items) => Success(JString(key) in items)
    case JString(s) => Success(exists i :: 0 <= i <= |s| && key <= s[i..])
    case _ => Failure(TypeError)
  }

  /** Python's `all(k in data for k in keys)`, stopping at the first key
      that is absent. */
  function AllPresent(doc: Json, keys: seq<string>): (r: Result<bool, Error>)
    ensures doc.JObject? ==> r == Success(forall k :: k in keys ==> k in doc.fields)
    ensures (doc.JNull? || doc.JBool? || doc.JNumber?) && keys != [] ==> r == Failure(TypeError)
  {
    if keys == [] then Success(true)
    else
      match Contains(doc, keys[0])
      case Failure(e) => Failure(e)
      case Success(false) => Success(false)
      case Success(true) =>
        var rest := AllPresent(doc, keys[1..]);
        assert forall k :: k in keys ==> k == keys[0] || k in keys[1..];
        rest
  }

  /** The value SQLite stores for a JSON value bound as a parameter:
      booleans become 0 or 1, `null` is NULL, an integer outside 64 bits
      raises `OverflowError`, arrays and objects cannot be bound. */
  function ToCell(j: Json): (r: Result<Option<Value>, Error>)
    ensures r.Success? && r.value.Some? <==> Storable(j)
    ensures r.Success? && r.value.Some? ==> Bindable(r.value.value)
    ensures j.JString? ==> r == Success(Some(Text(j.s)))
    ensures j.JNumber? ==> r == (if Int64(j.n) then Success(Some(Integer(j.n))) else Failure(OverflowError))
    ensures j.JArray? || j.JObject? ==> r == Failure(SqliteError(UnsupportedParameter))
  {
    match j
    case JNull => Success(None)
    case JBool(b) => Success(Some(Integer(if b then 1 else 0)))
    case JNumber(n) => if Int64(n) then Success(Some(Integer(n))) else Failure(OverflowError)
    case JString(s) => Success(Some(Text(s)))
    case _ => Failure(SqliteError(UnsupportedParameter))
  }

  /** A JSON value SQLite stores as a non-NULL cell. */
  predicate Storable(j: Json)
  {
    j.JBool? || (j.JNumber? && Int64(j.n)) || j.JString?
  }

  /** Binds statement parameters left to right; the first value that cannot
      be bound raises its error. */
  function BindParameters(values: seq<Json>): (r: Result<seq<Option<Value>>, Error>)
    ensures r.Success? <==> forall i :: 0 <= i < |values| ==> ToCell(values[i]).Success?
    ensures r.Success? ==>
      && |r.value| == |values|
      && forall i :: 0 <= i < |values| ==> ToCell(values[i]) == Success(r.value[i])
    ensures r.Failure? ==>
      exists i :: (0 <= i < |values| && ToCell(values[i]) == Failure(r.error)
                   && forall j :: 0 <= j < i ==> ToCell(values[j]).Success?)
  {
    if values == [] then Success([])
    else
      match ToCell(values[0])
      case Failure(e) => Failure(e)
      case Success(cell) =>
        match BindParameters(values[1..])
        case Failure(e) =>
          var i :| 0 <= i < |values[1..]| && ToCell(values[1..][i]) == Failure(e)
                   && forall j :: 0 <= j < i ==> ToCell(values[1..][j]).Success?;
          assert ToCell(values[i + 1]) == Failure(e);
          assert forall j :: 0 <= j < i + 1 ==> ToCell(values[j]).Success? by {
            forall j | 0 <= j < i + 1
              ensures ToCell(values[j]).Success?
            {
              if j > 0 {
                assert values[j] == values[1..][j - 1];
              }
            }
          }
          Failure(e)
        case Success(rest) =>
          assert forall i :: 1 <= i < |values| ==> values[i] == values[1..][i - 1];
          Success([cell] + rest)
  }

  /** The position of a column in the legacy insert. */
  function InsertPosition(c: Column): (i: nat)
    ensures i < 7
  {
    match c
    case AccountId => 0
    case ApplicationKey => 1
    case AccountAuthToken => 2
    case ApiUrl => 3
    case DownloadUrl => 4
    case MinimumPartSize => 5
    case Realm => 6
  }

  /** The legacy values in the order the insert binds them. */
  function LegacyParameters(fields: map<string, Json>): (params: seq<Json>)
    requires forall c :: ColumnName(c) in fields
    ensures |params| == 7
    ensures forall c :: params[InsertPosition(c)] == fields[ColumnName(c)]
  {
    [fields[ColumnName(AccountId)], fields[ColumnName(ApplicationKey)],
     fields[ColumnName(AccountAuthToken)], fields[ColumnName(ApiUrl)],
     fields[ColumnName(DownloadUrl)], fields[ColumnName(MinimumPartSize)],
     fields[ColumnName(Realm)]]
  }

  /** The row whose columns hold the bound cells in insert order. */
  function RowOfCells(cells: seq<Option<Value>>): (row: AccountRow)
    requires |cells| == 7 && forall i :: 0 <= i < 7 ==> cells[i].Some?
    ensures forall c :: cells[InsertPosition(c)] == Some(Field(row, c))
    ensures row.allowed == NullCell
  {
    AccountRow(cells[0].value, cells[1].value, cells[2].value, cells[3].value,
               cells[4].value, cells[5].value, cells[6].value, NullCell)
  }

  /** The column bound at a position of the legacy insert. */
  function ColumnAt(i: nat): (c: Column)
    requires i < 7
    ensures InsertPosition(c) == i
  {
    [AccountId, ApplicationKey, AccountAuthToken, ApiUrl, DownloadUrl, MinimumPartSize, Realm][i]
  }

  /** Every column's value is storable exactly when every bound parameter is. */
  lemma StorableParameters(fields: map<string, Json>)
    requires forall c :: ColumnName(c) in fields
    ensures (forall c :: Storable(fields[ColumnName(c)]))
        <==> (forall i :: 0 <= i < 7 ==> Storable(LegacyParameters(fields)[i]))
  {
    var params := LegacyParameters(fields);
    if forall c :: Storable(fields[ColumnName(c)]) {
      forall i | 0 <= i < 7
        ensures Storable(params[i])
      {
        assert params[i] == fields[ColumnName(ColumnAt(i))];
      }
    }
  }

  /** The account row inserted from a legacy object holding every required
      key: each column takes the value stored under its name, and the
      `allowed` column is left NULL. The first value that cannot be bound
      (an array, an object, an integer outside 64 bits) raises its error; a
      `null` in a NOT NULL column then fails the insert. */
  function LegacyRow(fields: map<string, Json>): (r: Result<AccountRow, Error>)
    requires forall c :: ColumnName(c) in fields
    ensures r.Success? <==> forall c :: Storable(fields[ColumnName(c)])
    ensures r.Success? ==>
      && r.value.allowed == NullCell
      && forall c :: ToCell(fields[ColumnName(c)]) == Success(Some(Field(r.value, c)))
    ensures r.Failure? ==>
      r.error in {SqliteError(UnsupportedParameter), OverflowError, SqliteError(NotNullConstraint)}
    ensures BindParameters(LegacyParameters(fields)).Failure? ==>
      r == Failure(BindParameters(LegacyParameters(fields)).error)
  {
    var params := LegacyParameters(fields);
    StorableParameters(fields);
    match BindParameters(params)
    case Failure(e) =>
      assert !Storable(params[BoundFailure(params, e)]);
      Failure(e)
    case Success(cells) =>
      if exists i :: 0 <= i < 7 && cells[i].None? then
        assert exists i :: 0 <= i < 7 && !Storable(params[i]);
        Failure(SqliteError(NotNullConstraint))
      else
        Success(RowOfCells(cells))
  }

  /** The position whose value failed to bind. */
  ghost function BoundFailure(params: seq<Json>, e: Error): (i: nat)
    requires BindParameters(params) == Failure(e)
    ensures i < |params| && ToCell(params[i]) == Failure(e)
  {
    var i :| 0 <= i < |params| && ToCell(params[i]) == Failure(e)
             && forall j :: 0 <= j < i ==> ToCell(params[j]).Success?;
    i
  }

  /** The legacy keys are exactly the names of the seven account columns. */
  lemma RequiredKeysAreColumns()
    ensures forall c :: ColumnName(c) in RequiredKeys
    ensures forall k :: k in RequiredKeys ==> exists c :: ColumnName(c) == k
  {
    assert ColumnName(AccountId) == RequiredKeys[0];
    assert ColumnName(ApplicationKey) == RequiredKeys[1];
    assert ColumnName(AccountAuthToken) == RequiredKeys[2];
    assert ColumnName(ApiUrl) == RequiredKeys[3];
    assert ColumnName(DownloadUrl) == RequiredKeys[4];
    assert ColumnName(MinimumPartSize) == RequiredKeys[5];
    assert ColumnName(Realm) == RequiredKeys[6];
  }

  /** The start-up decision, in the source's order: a missing file becomes a
      fresh owner-only database; a database whose tables can be created is
      kept; a JSON object with every required key is replaced by a fresh
      database holding its values; anything else raises
      `CorruptAccountInfo` and is left on disk. A `TypeError` from probing a
      JSON value that is not a container escapes unchanged. */
  function Validate(path: string, file: DiskFile): (v: Validated)
    ensures v.error.None? ==> v.file.Database? && MarkerCount(v.file.db, AllowedColumnUpdate) == 1
    ensures v.error == Some(CorruptAccountInfo(path)) ==> v.file == file
  {
    match file
    case Absent =>
      CreateTablesFresh();
      Validated(Database(FreshDb, true), None)
    case Database(db, ownerOnly) =>
      (match CreateTables(db)
       case Success(migrated) => Validated(Database(migrated, ownerOnly), None)
       case Failure(SqliteError(_)) => Validated(file, Some(CorruptAccountInfo(path)))
       case Failure(e) => Validated(file, Some(e)))
    case Garbage => Validated(file, Some(CorruptAccountInfo(path)))
    case JsonText(doc) =>
      match AllPresent(doc, RequiredKeys)
      case Failure(e) => Validated(file, Some(e))
      case Success(false) => Validated(file, Some(CorruptAccountInfo(path)))
      case Success(true) =>
        // the legacy file is unlinked and a fresh database created before
        // the values are read and inserted
        if !doc.JObject? then Validated(Database(FreshDb, true), Some(TypeError))
        else
          RequiredKeysAreColumns();
          match LegacyRow(doc.fields)
          case Failure(e) => Validated(Database(FreshDb, true), Some(e))
          case Success(row) => Validated(Database(FreshDb.(account := [row]), true), None)
  }
}

/** Opening the store, and what start-up validation promises. */
module Startup {
  import opened Results
  import opened Tables
  import opened Migration
  import opened AccountStore
  import opened Paths
  import opened Validation

  /** The store after construction: the path it resolved, what is on disk,
      and the database ready for use or the error construction raised. */
  datatype Opened = Opened(path: string, file: DiskFile, store: Result<Db, Error>)

  /** Construction: resolve the path, validate the file, then create the
      tables once more on the validated database. */
  function Open(fileName: Option<string>, environ: map<string, string>,
                expandUser: string -> string, file: DiskFile): (o: Opened)
    ensures o.path == ResolvePath(fileName, environ, expandUser)
    ensures o.store.Failure? <==> Validate(o.path, file).error.Some?
    ensures o.store.Success? ==>
      && Validate(o.path, file).file == Database(o.store.value, Validate(o.path, file).file.ownerOnly)
      && o.file == Validate(o.path, file).file
    ensures o.store.Failure? ==>
      && o.store.error == Validate(o.path, file).error.value
      && o.file == Validate(o.path, file).file
  {
    var path := ResolvePath(fileName, environ, expandUser);
    var v := Validate(path, file);
    match v.error
    case Some(e) => Opened(path, v.file, Failure(e))
    case None =>
      match v.file
      case Database(db, ownerOnly) =>
        match CreateTables(db)
        case Success(db') => Opened(path, Database(db', ownerOnly), Success(db'))
        case Failure(e) => Opened(path, v.file, Failure(e))
  }

  /** A missing file becomes a fresh, empty, owner-only database with the
      `allowed` column and its marker. */
  lemma ValidateAbsent(path: string)
    ensures Validate(path, Absent) == Validated(Database(FreshDb, true), None)
    ensures Ready(FreshDb) && FreshDb.account == [] && FreshDb.buckets == []
  {
    assert forall n :: MarkerCount(FreshDb, n) == (if n == AllowedColumnUpdate then 1 else 0);
  }

  /** A valid database is kept: its rows and permissions survive, and its
      schema ends up migrated. A database already migrated is left exactly
      as it was. */
  lemma ValidateKeepsDatabase(path: string, db: Db, ownerOnly: bool)
    requires Valid(db)
    ensures var v := Validate(path, Database(db, ownerOnly));
      && v.error.None? && v.file.Database? && v.file.ownerOnly == ownerOnly
      && Ready(v.file.db)
      && v.file.db.buckets == db.buckets && |v.file.db.account| == |db.account|
      && (forall i :: 0 <= i < |db.account| ==>
            v.file.db.account[i].(allowed := NullCell) == db.account[i].(allowed := NullCell))
    ensures !db.allowedColumn ==>
      var v := Validate(path, Database(db, ownerOnly));
      && v.file.db.updateDone == db.updateDone + [AllowedColumnUpdate]
      && forall i :: 0 <= i < |db.account| ==> v.file.db.account[i].allowed == NullCell
    ensures db.allowedColumn ==> Validate(path, Database(db, ownerOnly)) == Validated(Database(db, ownerOnly), None)
  {
  }

  /** A legacy JSON object with every required key, each a value SQLite can
      store, is converted: the file becomes an owner-only database with one
      account row carrying those values and no `allowed` descriptor. */
  lemma ValidateConvertsLegacy(path: string, fields: map<string, Json>)
    requires forall c :: ColumnName(c) in fields && Storable(fields[ColumnName(c)])
    ensures LegacyRow(fields).Success?
    ensures var db := FreshDb.(account := [LegacyRow(fields).value]);
      && Validate(path, JsonText(JObject(fields))) == Validated(Database(db, true), None)
      && Ready(db)
      && db.buckets == []
      && (forall c :: ToCell(fields[ColumnName(c)]) == Success(Some(AccountInfoOrRaise(db, c).value)))
      && GetAllowed(db) == Success(None)
  {
    RequiredKeysAreColumns();
    var db := FreshDb.(account := [LegacyRow(fields).value]);
    assert AllPresent(JObject(fields), RequiredKeys) == Success(true);
    assert forall n :: MarkerCount(db, n) == MarkerCount(FreshDb, n);
    ValidateAbsent(path);
  }

  /** A legacy object holding every required key whose values cannot all be
      stored (an array or object, an integer outside 64 bits, a `null`) has
      already been unlinked when the insert fails: the file is now a fresh,
      empty, owner-only database and the insert's error escapes. */
  lemma ValidateLegacyInsertFails(path: string, fields: map<string, Json>)
    requires forall c :: ColumnName(c) in fields
    requires exists c :: !Storable(fields[ColumnName(c)])
    ensures LegacyRow(fields).Failure?
    ensures Validate(path, JsonText(JObject(fields))) == Validated(Database(FreshDb, true), Some(LegacyRow(fields).error))
    ensures LegacyRow(fields).error in {SqliteError(UnsupportedParameter), OverflowError, SqliteError(NotNullConstraint)}
  {
    RequiredKeysAreColumns();
    assert AllPresent(JObject(fields), RequiredKeys) == Success(true);
  }

  /** A JSON object lacking a required key, or a file that is neither a
      database nor JSON, raises `CorruptAccountInfo` naming the path, and the
      file is not removed. */
  lemma ValidateRejectsCorrupt(path: string, fields: map<string, Json>, missing: string)
    requires missing in RequiredKeys && missing !in fields
    ensures Validate(path, JsonText(JObject(fields))) == Validated(JsonText(JObject(fields)), Some(CorruptAccountInfo(path)))
    ensures Validate(path, Garbage) == Validated(Garbage, Some(CorruptAccountInfo(path)))
  {
  }

  /** Probing a legacy value that is not a container (`null`, a boolean, a
      number) for a key raises `TypeError`; the file is kept. */
  lemma ValidateNonContainer(path: string, doc: Json)
    requires doc.JNull? || doc.JBool? || doc.JNumber?
    ensures Validate(path, JsonText(doc)) == Validated(JsonText(doc), Some(TypeError))
  {
  }

  /** An array or string that contains every required key passes the key
      check, so the file is already replaced by a fresh database when
      `data[k]` raises `TypeError`. */
  lemma ValidateNonObjectContainer(path: string, doc: Json)
    requires doc.JArray? || doc.JString?
    requires AllPresent(doc, RequiredKeys) == Success(true)
    ensures Validate(path, JsonText(doc)) == Validated(Database(FreshDb, true), Some(TypeError))
  {
  }

  /** A database whose update log says the `allowed` column is missing while
      the column exists fails to migrate and is reported as corrupt. */
  lemma ValidateRejectsInconsistentSchema(path: string, db: Db, ownerOnly: bool)
    requires db.allowedColumn && AllowedColumnUpdate !in db.updateDone
    ensures Validate(path, Database(db, ownerOnly)) == Validated(Database(db, ownerOnly), Some(CorruptAccountInfo(path)))
  {
    assert MarkerCount(db, AllowedColumnUpdate) == 0;
  }

  /** Construction from a missing file, a valid database or a convertible
      legacy file always succeeds, and the store it yields is ready: valid,
      migrated, and unchanged by the second table creation. */
  lemma OpenReady(fileName: Option<string>, environ: map<string, string>,
                  expandUser: string -> string, file: DiskFile)
    requires || file.Absent?
             || (file.Database? && Valid(file.db))
             || (file.JsonText? && file.doc.JObject?
                 && forall k :: k in RequiredKeys ==> k in file.doc.fields && Storable(file.doc.fields[k]))
    ensures var o := Open(fileName, environ, expandUser, file);
      o.store.Success? && Ready(o.store.value) && o.file.Database? && o.file.db == o.store.value
  {
    var path := ResolvePath(fileName, environ, expandUser);
    match file
    case Absent => ValidateAbsent(path);
    case Database(db, ownerOnly) => ValidateKeepsDatabase(path, db, ownerOnly);
    case JsonText(doc) =>
      RequiredKeysAreColumns();
      ValidateConvertsLegacy(path, doc.fields);
  }
}
